=== FILE: README.md ===
# Task manager services: authentication handshake, task table, webhook fan-out

A Dafny model of the request logic of three Go services:

- the **auth service** (`apps/auth-service/main.go`) holds the `users` table. It
  registers users, logs them in, issues JWTs, validates presented tokens and seeds
  a default admin at startup;
- the **task service** (`apps/task-service/main.go`) puts `authMiddleware` in front of
  every task route. The middleware strips an optional `"Bearer "` prefix, asks the
  auth service to validate the token, and passes the user id on in an `X-User-ID`
  header. The handlers then run per-user create/get/update/delete/list over the
  `tasks` table;
- the **notification service** (`apps/notification-service/main.go`) keeps an
  in-memory map from event name to webhook URLs. Each raised event becomes one
  POST of `{event, data}` per registered URL.

The model is functional. Tables are immutable maps from id to row, with the next
AUTOINCREMENT value. Every handler is a pure function from the request and the
table to the response and the new table. The libraries and the network are
function-typed parameters:
- bcrypt hashing and comparison (`hash`, `matches`);
- HS256 signing (`sign`);
- JWT parsing, which includes the library's expiry and not-before checks (`parse`);
- the task service's HTTP call to the validate endpoint (`issuer`);
- a webhook POST (`post`).

Times are explicit `now` parameters in seconds.

Files and modules:

| file | module | models |
|---|---|---|
| `wrappers.dfy` | `Wrappers` | `Option` and `Result` |
| `http.dfy` | `Http` | status codes, the 2xx range |
| `decimal.dfy` | `Decimal` | Go's `strconv.Itoa` / `strconv.Atoi` on 64-bit `int` |
| `bearer.dfy` | `Bearer` | the shared `"Bearer "` strip rule |
| `auth_service.dfy` | `AuthService` | users table, register, login, claims, validate, current user, admin seeding |
| `tasks.dfy` | `Tasks` | tasks table and the five handlers, listing order |
| `task_service.dfy` | `TaskService` | `validateToken`, `authMiddleware`, routing, whole-request behaviour |
| `notifications.dfy` | `Notifications` | webhook registry, fan-out, delivery outcome, notification handlers |
| `flows.dfy` | `Flows` | the services together: register→login→validate→task handler |

Behaviour of the code worth noting:
- the webhook registry is a list per event that keeps duplicates, not a set;
- the default admin is created unconditionally on an empty table, not only in a
  development mode;
- the middleware does not log whether the auth service was unreachable or the token
  was invalid. Both are the same `err` and the same 401.

## Model

| member | source | states |
|---|---|---|
| Decimal.Itoa | apps/task-service/main.go:209 | the rendering is non-empty, starts with `-` exactly for negative ids, and is all digits otherwise |
| Decimal.Atoi | apps/task-service/main.go:252-257 | empty text and a lone sign are rejected; after an optional `+` or `-`, the text parses exactly when it is all digits and the signed value fits in 64 bits, and then to that signed value; anything else is the "Invalid ..." error |
| Decimal.NonDigitRejected | apps/task-service/main.go:365-369 | any character other than a digit after the optional sign makes the id invalid |
| Decimal.AtoiItoa | apps/task-service/main.go:209 | the user id the middleware writes into `X-User-ID` is parsed back by every handler as the same id, for every 64-bit id |
| Decimal.DigitsRoundTrip | apps/task-service/main.go:253 | reading back the shortest digit string of a natural number gives that number |
| Bearer.StripBearer | apps/task-service/main.go:196-199 | the result is either the header unchanged or the non-empty token after the scheme; a non-empty header never strips to an empty token |
| Bearer.StripRoundTrip | apps/task-service/main.go:221 | stripping `"Bearer " + t` gives back any non-empty `t` |
| Bearer.BareSchemeKept | apps/task-service/main.go:197 | a header that is exactly `"Bearer "` passes through unchanged |
| Bearer.NoSchemeKept | apps/auth-service/main.go:403 | a header not starting with `"Bearer "` passes through unchanged |
| AuthService.FindByUsername | apps/auth-service/main.go:284-287 | finds the stored row with that username, and finds nothing exactly when no row has it |
| AuthService.Insert | apps/auth-service/main.go:346-360 | an exhausted id counter fails first, adding nothing, as SQLite takes the new id before checking constraints; while ids remain, a UNIQUE clash on username or email is a conflict, and otherwise exactly one row is added under the counter's id and the table stays valid |
| AuthService.SeedAdmin | apps/auth-service/main.go:164-186 | a non-empty table is returned untouched; an empty one with ids left is seeded exactly when hashing succeeds, and then holds exactly the admin row with a hash of the default password |
| AuthService.Register | apps/auth-service/main.go:325-393 | empty fields or an undecodable body give 400 with the table unchanged; a hashing failure or an exhausted id counter is a 500 with the table unchanged, and a signing failure is a 500 that keeps the new user; 409 "Username or email already exists" exactly on a username/email clash while ids remain, table unchanged; a decoded, complete, unclashing request with a working hash and ids left always adds a row, and any change is exactly one row holding the hash, not the password; 201 carries a token signed over that user's claims |
| AuthService.Login | apps/auth-service/main.go:274-323 | an unknown username and a wrong password give the same 401, while a signing failure for correct credentials is a 500; 200 exactly when a stored user matches and signing succeeds, with a token for that stored user |
| AuthService.LoginFailuresIndistinguishable | apps/auth-service/main.go:289-302 | an unknown username and a known username with the wrong password get identical responses |
| AuthService.SeededAdminCanLogIn | apps/auth-service/main.go:171-186 | on an empty table with a working hash, seeding succeeds and the admin can log in with the default password and gets the admin record |
| AuthService.Authorize | apps/auth-service/main.go:427-443 | no header is a 401 without parsing; otherwise success exactly when the stripped token parses, with those claims |
| AuthService.ValidateToken | apps/auth-service/main.go:395-424 | 401 "Authorization header required" on an empty header and 401 "Invalid token" on a token that does not parse; otherwise 200 with the claims' user id and username |
| AuthService.GetUser | apps/auth-service/main.go:426-460 | 401 as for validation; a parsed token whose user id is no longer stored gives 404; otherwise the stored user |
| Tasks.OwnedIffListed | apps/task-service/main.go:372-380 | a stored task can be fetched by a caller exactly when it appears in that caller's unfiltered listing |
| Tasks.CreateTask | apps/task-service/main.go:302-354 | a bad user header, an undecodable body or an empty title is the matching 400, and an exhausted id counter is a 500, each with the table unchanged; 201 exactly when header, body and title are good and ids remain; the new row takes the counter's id and the counter advances, so a deleted task's id is never reused; the row is owned by the caller, status `pending`, priority defaulted to `medium`, and is the only change |
| Tasks.GetTask | apps/task-service/main.go:356-389 | 200 exactly for the caller's own task, returning it; an id the caller does not own is the same 404 as a missing one |
| Tasks.UpdateTask | apps/task-service/main.go:391-454 | only the caller's task is changed: its title, description, status and priority become the request's values, even empty ones, while id, owner and creation time and every other row stay; otherwise 404 or 400 with the table unchanged |
| Tasks.DeleteTask | apps/task-service/main.go:456-498 | removes exactly the caller's task and answers 204 with no body; otherwise 404 or 400 with the table unchanged |
| Tasks.CreateThenGet | apps/task-service/main.go:328-344 | a created task is fetched back unchanged by its owner, using the id in the response |
| Tasks.UpdateThenGet | apps/task-service/main.go:429-444 | after an update, fetching the task returns exactly what the update answered |
| Tasks.DeleteThenGet | apps/task-service/main.go:488-497 | after a delete, fetching the task or deleting it again is a 404 |
| Tasks.Scan | apps/task-service/main.go:264 | every selected row from `from` on is returned once, and nothing else |
| Tasks.InsertNewestFirst | apps/task-service/main.go:277 | inserting into a newest-first list keeps it newest-first and adds exactly the new element |
| Tasks.InsertKeepsDistinct | apps/task-service/main.go:277 | inserting a task that is not yet listed keeps every task listed once |
| Tasks.SortNewestFirst | apps/task-service/main.go:277 | the result is ordered by creation time descending, has the same elements, and keeps them distinct |
| Tasks.Select | apps/task-service/main.go:263-277 | the listing holds exactly the caller's rows that pass each non-empty filter, each once, newest first |
| Tasks.ListTasks | apps/task-service/main.go:251-300 | a bad user header is a 400; otherwise 200 with a listing of exactly the caller's filtered tasks |
| TaskService.ValidateToken | apps/task-service/main.go:214-249 | the auth service is sent `"Bearer " + token`; only a 200 whose decoded body says `valid` yields a user id, and it is that body's id |
| TaskService.Screen | apps/task-service/main.go:188-212 | an empty header is refused without calling the auth service; otherwise the stripped token is sent, and the request is admitted exactly when it validates, with an `X-User-ID` that parses back to the validated id |
| TaskService.Dispatch | apps/task-service/main.go:151-155 | a bad `X-User-ID` is a 400 with no change; handlers never answer 401 and keep the table valid |
| TaskService.Serve | apps/task-service/main.go:188-212 | 401 exactly when the header is missing or does not validate, and then the table is unchanged and no handler runs; otherwise the handler runs as the validated user, who is never rejected as an invalid user id |
| TaskService.OnlyCallersTasksTouched | apps/task-service/main.go:414-490 | any request leaves every other user's task unchanged, adds rows only for the caller, and changes nothing when refused |
| TaskService.ForeignTaskLooksMissing | apps/task-service/main.go:412-426 | for get, update and delete, another user's task gives the same response as if the row did not exist, and is left unchanged |
| Notifications.RegisterWebhook | apps/notification-service/main.go:235-267 | empty event or URL, or an undecodable body, is a 400 with the registry unchanged; otherwise the URL is appended to that event's list, duplicates kept, and no other event's list changes |
| Notifications.SubscribersAfterRegistrations | apps/notification-service/main.go:253-256 | after a sequence of registrations, an event's subscribers are the earlier ones followed by the URLs accepted for it, in registration order |
| Notifications.FanOut | apps/notification-service/main.go:344-360 | one attempt per URL, in order, each with the same payload |
| Notifications.Trigger | apps/notification-service/main.go:326-361 | an unregistered event gives no attempts; otherwise one attempt per registered URL, in order, each with the payload `{event, data}` |
| Notifications.Targets | apps/notification-service/main.go:344 | the URLs of an attempt list, position by position |
| Notifications.TriggerKeepsMultiplicity | apps/notification-service/main.go:344-359 | each URL is POSTed to as many times as it is registered for the event |
| Notifications.DuplicateRegistrationDuplicatesDelivery | apps/notification-service/main.go:253-256 | registering the same URL twice makes the next trigger POST to it two more times |
| Notifications.Classify | apps/notification-service/main.go:347-358 | a delivery counts as successful exactly when a status in [200, 300) came back; a transport error is logged as unsent |
| Notifications.Deliver | apps/notification-service/main.go:344-360 | every attempt gets exactly one log entry, which depends on that attempt's own POST alone, duplicates included |
| Notifications.DeliveriesIndependent | apps/notification-service/main.go:345-359 | the outcome logged for one attempt does not depend on what happened to any other |
| Notifications.DuplicateDeliveriesCanDiffer | apps/notification-service/main.go:344-359 | two POSTs to a URL registered twice are separate: one can be delivered while the other fails |
| Notifications.NextIdAfterRegistration | apps/notification-service/main.go:184 | the id counts events, not URLs: a registration raises the next id by one exactly when it is accepted and is the first for its event |
| Notifications.CreateNotification | apps/notification-service/main.go:169-199 | empty title or message, or an undecodable body, is a 400 with no deliveries; otherwise 201 with an unread notification keeping the given type, announced as `notification.created` to every subscriber |
| Notifications.NotificationIdsRepeat | apps/notification-service/main.go:184 | two notifications created against the same registry get the same id |
| Notifications.DemoSendNotification | apps/notification-service/main.go:289-324 | any decodable request is accepted, without a title or message check; an empty type becomes `info`; same id rule and event |
| Notifications.DemoSendAgreesWithCreate | apps/notification-service/main.go:289-324 | with a title, a message and a type, the demo send gives the same response and deliveries as creating a notification |
| Notifications.DemoSendSkipsValidation | apps/notification-service/main.go:175-179 | a request refused with 400 for a missing title or message is accepted by the demo send with 201 and announced to every subscriber |
| Notifications.TriggerWebhook | apps/notification-service/main.go:269-287 | a decodable body is fanned out under the path's event name, and the handler answers 200 |
| Notifications.MarkAsRead | apps/notification-service/main.go:201-220 | a non-numeric id is a 400 with no deliveries; otherwise `notification.read` is announced with that id and time |
| Notifications.MarkAllAsRead | apps/notification-service/main.go:222-233 | always announces `notifications.read_all` with the time and answers 200 |
| Notifications.TwoSinksScenario | apps/notification-service/main.go:253-256 | two sinks registered for `task.created` each get `{event: "task.created", data}`, in registration order |
| Flows.IssuerReply | apps/task-service/main.go:230-248 | the task service sees the validate endpoint's status as sent, and a body only for a validated reply whose id fits a Go `int` |
| Flows.ForwardedTokenUnchanged | apps/task-service/main.go:197-221 | the token the auth service parses after its own strip is exactly the token the middleware extracted |
| Flows.RegisterThenLogin | apps/auth-service/main.go:339-355 | after a successful registration, logging in with the same username and password returns the registered user |
| Flows.RegisterTwiceConflicts | apps/auth-service/main.go:351-359 | registering a taken username again is a 409, or the 500 of a failed INSERT if the first registration took the last id, and leaves the table with the one user added by the first registration |
| Flows.RegisteredTokenResolves | apps/auth-service/main.go:426-460 | the token returned by a successful registration resolves, at the current-user endpoint during its 24 hours, to the newly stored user |
| Flows.IssuedTokenValidates | apps/auth-service/main.go:395-424 | a token from a successful login, presented as `Bearer <token>` within 24 hours, validates as the logged-in user |
| Flows.LoginTokenLifetime | apps/auth-service/main.go:462-470 | a login token validates exactly from the moment it is issued until 24 hours later, excluded |
| Flows.ParsedTokenValidates | apps/task-service/main.go:214-249 | the task service validates any token the auth service can parse as the claims' user id |
| Flows.ValidTokenReachesHandler | apps/task-service/main.go:188-212 | a `Bearer <token>` header whose token validates is admitted after one call to the auth service, and the handler runs as that user |
| Flows.LoggedInUserReachesHandler | apps/task-service/main.go:202-210 | a task request made within 24 hours of a login, with its token, runs its handler as the logged-in user |
| Flows.CreatedTaskBelongsToCaller | apps/task-service/main.go:317-331 | a task created with a valid token is stored as returned and is owned by the token's user |

## Left out

- HTTP plumbing: routing, CORS, health checks, `getEnv`, JSON encoding. An
  undecodable request body is the `None` of the request parameter.
- Prometheus metrics and the `responseWriter` wrapper in the auth service: they only
  observe requests.
- The webhook-registry data race between handlers and fan-out goroutines.
  Registration and triggering are modelled in sequence, and a triggered event reads
  the registry as it is when the request arrives.
- Goroutines, the 5 and 10 second client timeouts, and log lines. A fan-out is the
  list of attempts it starts. A timeout or network error is `TransportError` or
  `TransportFailed`.
- Database errors other than a UNIQUE violation or an exhausted AUTOINCREMENT
  counter. The "Database error" and "Failed to retrieve ..." answers (500) come from
  a failing database or from another request interleaving, and neither is modelled.
- Concurrent requests. Requests are modelled one at a time, so the handlers'
  check-then-act gaps between separate statements are not represented. For example,
  a DELETE that lands between `updateTaskHandler`'s UPDATE and its re-SELECT makes
  the update answer 500. Two concurrent deletes of one task can both pass the COUNT
  check and both answer 204.
- The `updated_at` column and its trigger. Real timestamps are replaced by a `now`
  parameter.
- AuthService.IssueClaims: takes one `now`, while the source reads the clock three
  times for the three claims. At second precision they almost always agree.
- AuthService.ValidateToken: the expiry and not-before checks happen inside the JWT
  library, inside the `parse` parameter. What the token lemmas rely on is stated as
  two predicates, `Flows.SignedTokensParse` and `Flows.SignedTokensExpire`: at the
  moment of parsing, the service's own tokens are accepted inside their window and
  refused outside it. Tokens signed by anyone else are not constrained.
- `json.Marshal` failing on a webhook payload: the payloads here are plain records
  that always encode.
- The hard-coded list of `getNotificationsHandler`.
- An empty task listing is encoded by the source as JSON `null`. The model's body is
  the empty sequence.
- Tasks.Select: rows created in the same second may come back in any order from the
  database. The model puts them in one fixed order, and its contract promises only
  newest-first.
- Decimal.Atoi: models Go's 64-bit `int`. A 32-bit build would reject ids above 2^31-1.

=== FILE: auth_service.dfy ===
/**
 The auth service: the users table, registration, login, token claims, the token
 validation endpoint the task service calls, the current-user endpoint, and the
 default admin created at startup.

 The libraries it relies on are parameters:
 - `hash`: bcrypt's `GenerateFromPassword` for one call (the random salt is part of
   the function handed in); `None` is a hashing error;
 - `matches`: bcrypt's `CompareHashAndPassword` succeeding;
 - `sign`: HS256 signing with the process's secret; `None` is a signing error;
 - `parse`: JWT parsing and checking with the same secret at the moment of the call,
   including the library's own expiry and not-before checks; `None` is any failure.
 */
module AuthService {
  import opened Wrappers
  import opened Decimal
  import opened Http
  import opened Bearer

  /** Tokens expire 24 hours after they are issued, counted in seconds. */
  const TokenLifetime: int := 24 * 60 * 60

  const AdminUsername: string := "admin"
  const AdminEmail: string := "admin@taskmanager.com"
  const AdminPassword: string := "admin123"

  /** A user as the service returns it; the password hash is never part of it. */
  datatype User = User(id: int, username: string, email: string, createdAt: int)

  /** A bcrypt digest as stored in the `password_hash` column. */
  datatype Digest = Digest(encoded: string)

  datatype UserRow = UserRow(user: User, passwordHash: Digest)

  /** The `users` table: rows by id, and the next AUTOINCREMENT value. */
  datatype UserTable = UserTable(rows: map<int, UserRow>, nextId: int)

  /** The claims of an issued token. */
  datatype Claims = Claims(userId: int, username: string, issuedAt: int, notBefore: int, expiresAt: int)

  datatype LoginRequest = LoginRequest(username: string, password: string)

  datatype RegisterRequest = RegisterRequest(username: string, email: string, password: string)

  datatype Body =
    | Message(text: string)
    | Issued(token: string, user: User)
    | Validated(userId: int, username: string)
    | Profile(user: User)

  datatype Response = Response(status: int, body: Body)

  /** The answer to a request together with the users table after it. */
  datatype Handled = Handled(response: Response, table: UserTable)

  /**
   What the table's schema guarantees: each row is stored under its own id, ids
   come from the AUTOINCREMENT counter and fit in 64 bits, and usernames and emails
   are UNIQUE.
   */
  predicate Valid(t: UserTable) {
    && 1 <= t.nextId <= MaxInt64 + 1
    && (forall id :: id in t.rows ==> t.rows[id].user.id == id && 1 <= id < t.nextId)
    && (forall i, j :: i in t.rows && j in t.rows && i != j ==>
          t.rows[i].user.username != t.rows[j].user.username &&
          t.rows[i].user.email != t.rows[j].user.email)
  }

  const EmptyTable: UserTable := UserTable(map[], 1)

  /** True when an insert of this username and email would violate a UNIQUE constraint. */
  predicate Taken(t: UserTable, username: string, email: string) {
    exists id :: id in t.rows && (t.rows[id].user.username == username || t.rows[id].user.email == email)
  }

  /** The row whose username is `username`, if any. */
  function FindByUsername(t: UserTable, username: string): (r: Option<UserRow>)
    requires Valid(t)
    ensures r.Some? ==> r.value.user.id in t.rows && t.rows[r.value.user.id] == r.value
    ensures r.Some? ==> r.value.user.username == username
    ensures r.None? <==> forall id :: id in t.rows ==> t.rows[id].user.username != username
  {
    if exists id :: id in t.rows && t.rows[id].user.username == username then
      var id :| id in t.rows && t.rows[id].user.username == username;
      Some(t.rows[id])
    else
      None
  }

  /**
   The INSERT into `users`: a fresh id from the counter, the given username, email
   and digest. SQLite takes the new AUTOINCREMENT id before it checks constraints,
   so an exhausted counter fails first, as a database error other than a conflict;
   only then is a UNIQUE violation a conflict.
   */
  datatype Inserted = Conflict | StoreFull | Added(table: UserTable, user: User)

  function Insert(t: UserTable, username: string, email: string, digest: Digest, now: int): (r: Inserted)
    requires Valid(t)
    ensures r.StoreFull? <==> t.nextId > MaxInt64
    ensures r.Conflict? <==> t.nextId <= MaxInt64 && Taken(t, username, email)
    ensures r.Added? ==> Valid(r.table)
    ensures r.Added? ==> r.user == User(t.nextId, username, email, now) && r.user.id !in t.rows
    ensures r.Added? ==> r.table.rows == t.rows[r.user.id := UserRow(r.user, digest)]
  {
    if t.nextId > MaxInt64 then StoreFull
    else if Taken(t, username, email) then Conflict
    else
      var user := User(t.nextId, username, email, now);
      Added(UserTable(t.rows[user.id := UserRow(user, digest)], t.nextId + 1), user)
  }

  /** The claims `generateToken` signs: the user, issued and valid from `now`, for 24 hours. */
  function IssueClaims(userId: int, username: string, now: int): (c: Claims)
    ensures c.userId == userId && c.username == username
    ensures c.issuedAt == now && c.notBefore == now
    ensures c.expiresAt - c.issuedAt == TokenLifetime
  {
    Claims(userId, username, now, now, now + TokenLifetime)
  }

  /**
   `initDatabase`: when the users table is empty, insert the default admin with a
   hash of the well-known password; a table with any row is left as it is. A
   hashing failure stops the service from starting.
   */
  function SeedAdmin(t: UserTable, hash: string -> Option<Digest>, now: int): (r: Result<UserTable, string>)
    requires Valid(t)
    ensures |t.rows| > 0 ==> r == Success(t)
    ensures r.Success? ==> Valid(r.value)
    ensures |t.rows| == 0 && hash(AdminPassword).None? ==> r.Failure?
    ensures |t.rows| == 0 && hash(AdminPassword).Some? && t.nextId <= MaxInt64 ==> r.Success?
    ensures |t.rows| == 0 && r.Success? ==>
      && r.value.rows.Keys == {t.nextId}
      && r.value.rows[t.nextId] == UserRow(User(t.nextId, AdminUsername, AdminEmail, now), hash(AdminPassword).value)
  {
    if |t.rows| != 0 then Success(t)
    else match hash(AdminPassword)
      case None => Failure("failed to hash default password")
      case Some(digest) =>
        match Insert(t, AdminUsername, AdminEmail, digest, now)
        case Added(t', _) => Success(t')
        case _ => Failure("failed to create default user")
  }

  /**
   `registerHandler`. The order of the checks is the source's: decoding, then the
   three required fields, then hashing, then the INSERT (conflict or other error),
   then signing. A signing failure answers 500 but the user stays registered.
   */
  function Register(t: UserTable, req: Option<RegisterRequest>, hash: string -> Option<Digest>,
                    sign: Claims -> Option<string>, now: int): (h: Handled)
    requires Valid(t)
    ensures Valid(h.table)
    ensures req.None? ==> h == Handled(Response(StatusBadRequest, Message("Invalid request body")), t)
    ensures req.Some? && (req.value.username == "" || req.value.email == "" || req.value.password == "") ==>
      h == Handled(Response(StatusBadRequest, Message("Username, email, and password are required")), t)
    ensures h.response.status == StatusConflict <==>
      && req.Some? && req.value.username != "" && req.value.email != "" && req.value.password != ""
      && hash(req.value.password).Some?
      && t.nextId <= MaxInt64
      && Taken(t, req.value.username, req.value.email)
    ensures h.response.status == StatusConflict ==>
      h == Handled(Response(StatusConflict, Message("Username or email already exists")), t)
    ensures req.Some? && req.value.username != "" && req.value.email != "" && req.value.password != "" &&
            hash(req.value.password).None? ==>
              h == Handled(Response(StatusInternalServerError, Message("Failed to hash password")), t)
    ensures req.Some? && req.value.username != "" && req.value.email != "" && req.value.password != "" &&
            hash(req.value.password).Some? && t.nextId > MaxInt64 ==>
              h == Handled(Response(StatusInternalServerError, Message("Failed to create user")), t)
    ensures h.table != t && sign(IssueClaims(t.nextId, req.value.username, now)).None? ==>
      h.response == Response(StatusInternalServerError, Message("Failed to generate token"))
    ensures req.Some? && req.value.username != "" && req.value.email != "" && req.value.password != "" &&
            hash(req.value.password).Some? && !Taken(t, req.value.username, req.value.email) && t.nextId <= MaxInt64 ==>
              h.table != t
    ensures h.table != t ==>
      && req.Some? && hash(req.value.password).Some? && !Taken(t, req.value.username, req.value.email)
      && var user := User(t.nextId, req.value.username, req.value.email, now);
         && t.nextId !in t.rows
         && h.table.rows == t.rows[t.nextId := UserRow(user, hash(req.value.password).value)]
    ensures h.response.status == StatusCreated <==> h.table != t && sign(IssueClaims(t.nextId, req.value.username, now)).Some?
    ensures h.response.status == StatusCreated ==>
      h.response.body == Issued(sign(IssueClaims(t.nextId, req.value.username, now)).value,
                                User(t.nextId, req.value.username, req.value.email, now))
  {
    match req
    case None => Handled(Response(StatusBadRequest, Message("Invalid request body")), t)
    case Some(r) =>
      if r.username == "" || r.email == "" || r.password == "" then
        Handled(Response(StatusBadRequest, Message("Username, email, and password are required")), t)
      else match hash(r.password)
        case None => Handled(Response(StatusInternalServerError, Message("Failed to hash password")), t)
        case Some(digest) =>
          match Insert(t, r.username, r.email, digest, now)
          case Conflict => Handled(Response(StatusConflict, Message("Username or email already exists")), t)
          case StoreFull => Handled(Response(StatusInternalServerError, Message("Failed to create user")), t)
          case Added(t', user) =>
            match sign(IssueClaims(user.id, user.username, now))
            case None => Handled(Response(StatusInternalServerError, Message("Failed to generate token")), t')
            case Some(token) => Handled(Response(StatusCreated, Issued(token, user)), t')
  }

  /**
   `loginHandler`: an unknown username and a wrong password get the same 401; a
   successful login issues a token for the stored user. Login never changes the table.
   */
  function Login(t: UserTable, req: Option<LoginRequest>, matches: (Digest, string) -> bool,
                 sign: Claims -> Option<string>, now: int): (r: Response)
    requires Valid(t)
    ensures req.None? ==> r == Response(StatusBadRequest, Message("Invalid request body"))
    ensures req.Some? && FindByUsername(t, req.value.username).None? ==> r == InvalidCredentials
    ensures req.Some? && FindByUsername(t, req.value.username).Some? &&
            !matches(FindByUsername(t, req.value.username).value.passwordHash, req.value.password) ==>
              r == InvalidCredentials
    ensures req.Some? && FindByUsername(t, req.value.username).Some? &&
            matches(FindByUsername(t, req.value.username).value.passwordHash, req.value.password) &&
            sign(IssueClaims(FindByUsername(t, req.value.username).value.user.id, req.value.username, now)).None? ==>
              r == Response(StatusInternalServerError, Message("Failed to generate token"))
    ensures r.status == StatusOK <==>
      && req.Some?
      && (exists id :: id in t.rows && t.rows[id].user.username == req.value.username &&
                       matches(t.rows[id].passwordHash, req.value.password) &&
                       sign(IssueClaims(id, req.value.username, now)).Some?)
    ensures r.status == StatusOK ==>
      && r.body.Issued?
      && r.body.user.id in t.rows
      && t.rows[r.body.user.id].user == r.body.user
      && r.body.user.username == req.value.username
      && sign(IssueClaims(r.body.user.id, r.body.user.username, now)) == Some(r.body.token)
  {
    match req
    case None => Response(StatusBadRequest, Message("Invalid request body"))
    case Some(q) =>
      match FindByUsername(t, q.username)
      case None => InvalidCredentials
      case Some(row) =>
        if !matches(row.passwordHash, q.password) then InvalidCredentials
        else match sign(IssueClaims(row.user.id, row.user.username, now))
          case None => Response(StatusInternalServerError, Message("Failed to generate token"))
          case Some(token) => Response(StatusOK, Issued(token, row.user))
  }

  const InvalidCredentials: Response := Response(StatusUnauthorized, Message("Invalid credentials"))

  /** An unknown username and a known one with the wrong password cannot be told apart. */
  lemma LoginFailuresIndistinguishable(t: UserTable, unknown: LoginRequest, wrong: LoginRequest,
                                       matches: (Digest, string) -> bool, sign: Claims -> Option<string>, now: int)
    requires Valid(t)
    requires forall id :: id in t.rows ==> t.rows[id].user.username != unknown.username
    requires exists id :: id in t.rows && t.rows[id].user.username == wrong.username &&
                          !matches(t.rows[id].passwordHash, wrong.password)
    ensures Login(t, Some(unknown), matches, sign, now) == Login(t, Some(wrong), matches, sign, now)
    ensures Login(t, Some(unknown), matches, sign, now) == InvalidCredentials
  {
  }

  /** bcrypt's compare accepts the password a digest was made from. */
  ghost predicate HashesVerify(hash: string -> Option<Digest>, matches: (Digest, string) -> bool) {
    forall pw :: hash(pw).Some? ==> matches(hash(pw).value, pw)
  }

  /** On a fresh installation the seeded admin can log in with the well-known password. */
  lemma SeededAdminCanLogIn(t: UserTable, hash: string -> Option<Digest>, matches: (Digest, string) -> bool,
                            sign: Claims -> Option<string>, now: int, later: int)
    requires Valid(t) && |t.rows| == 0
    requires HashesVerify(hash, matches)
    requires forall c :: sign(c).Some?
    requires hash(AdminPassword).Some? && t.nextId <= MaxInt64
    ensures SeedAdmin(t, hash, now).Success?
    ensures var r := Login(SeedAdmin(t, hash, now).value, Some(LoginRequest(AdminUsername, AdminPassword)), matches, sign, later);
      && r.status == StatusOK
      && r.body.user == User(t.nextId, AdminUsername, AdminEmail, now)
  {
    var t' := SeedAdmin(t, hash, now).value;
    assert t'.rows[t.nextId].user.username == AdminUsername;
    assert sign(IssueClaims(t.nextId, AdminUsername, later)).Some?;
  }

  /** The token parsed from an `Authorization` header, or the 401 the two token endpoints answer. */
  function Authorize(header: string, parse: string -> Option<Claims>): (r: Result<Claims, Response>)
    ensures header == "" ==> r == Failure(Response(StatusUnauthorized, Message("Authorization header required")))
    ensures header != "" ==> (r.Success? <==> parse(StripBearer(header)).Some?)
    ensures r.Success? ==> Some(r.value) == parse(StripBearer(header))
    ensures r.Failure? ==> r.error.status == StatusUnauthorized
  {
    if header == "" then Failure(Response(StatusUnauthorized, Message("Authorization header required")))
    else match parse(StripBearer(header))
      case None => Failure(Response(StatusUnauthorized, Message("Invalid token")))
      case Some(claims) => Success(claims)
  }

  /** `validateTokenHandler`: 401 without a header or with a token that does not parse, else the claims' user. */
  function ValidateToken(header: string, parse: string -> Option<Claims>): (r: Response)
    ensures header == "" ==> r == Response(StatusUnauthorized, Message("Authorization header required"))
    ensures r.status == StatusOK <==> header != "" && parse(StripBearer(header)).Some?
    ensures r.status != StatusOK ==> r.status == StatusUnauthorized
    ensures header != "" && parse(StripBearer(header)).None? ==> r == Response(StatusUnauthorized, Message("Invalid token"))
    ensures r.status == StatusOK ==>
      var c := parse(StripBearer(header)).value;
      r.body == Validated(c.userId, c.username)
  {
    match Authorize(header, parse)
    case Failure(denied) => denied
    case Success(claims) => Response(StatusOK, Validated(claims.userId, claims.username))
  }

  /**
   `getUserHandler`: like validation, but the user is read back from the table, so a
   token for a user id that is no longer stored answers 404.
   */
  function GetUser(t: UserTable, header: string, parse: string -> Option<Claims>): (r: Response)
    ensures header == "" ==> r == Response(StatusUnauthorized, Message("Authorization header required"))
    ensures header != "" && parse(StripBearer(header)).None? ==> r == Response(StatusUnauthorized, Message("Invalid token"))
    ensures header != "" && parse(StripBearer(header)).Some? && parse(StripBearer(header)).value.userId !in t.rows ==>
      r == Response(StatusNotFound, Message("User not found"))
    ensures r.status == StatusOK <==>
      header != "" && parse(StripBearer(header)).Some? && parse(StripBearer(header)).value.userId in t.rows
    ensures r.status == StatusOK ==> r.body == Profile(t.rows[parse(StripBearer(header)).value.userId].user)
  {
    match Authorize(header, parse)
    case Failure(denied) => denied
    case Success(claims) =>
      if claims.userId in t.rows then Response(StatusOK, Profile(t.rows[claims.userId].user))
      else Response(StatusNotFound, Message("User not found"))
  }
}

=== FILE: bearer.dfy ===
/**
 The optional `"Bearer "` scheme prefix on an `Authorization` header. The task
 service's middleware and the auth service's validate and user endpoints strip it
 with the same rule, and the task service adds it back when it calls the auth service.
 */
module Bearer {

  const Scheme: string := "Bearer "

  /**
   Removes the scheme only when the header is strictly longer than the scheme and
   starts with it; a bare `"Bearer "` and a header without the scheme pass unchanged.
   */
  function StripBearer(header: string): (token: string)
    ensures token == header || (|token| > 0 && header == Scheme + token)
    ensures |header| > 0 ==> |token| > 0
  {
    if |header| > |Scheme| && header[..|Scheme|] == Scheme then header[|Scheme|..] else header
  }

  /** Stripping what the task service sends, `Scheme + token`, gives back any non-empty token. */
  lemma StripRoundTrip(token: string)
    requires |token| > 0
    ensures StripBearer(Scheme + token) == token
  {
  }

  /** A header that is exactly the scheme, with nothing after it, is passed on unchanged. */
  lemma BareSchemeKept()
    ensures StripBearer(Scheme) == Scheme
  {
  }

  /** A header that does not start with the scheme is passed on unchanged. */
  lemma NoSchemeKept(header: string)
    requires |header| < |Scheme| || header[..|Scheme|] != Scheme
    ensures StripBearer(header) == header
  {
  }
}

=== FILE: decimal.dfy ===
/**
 Go's `strconv.Itoa` and `strconv.Atoi` on a 64-bit platform. The task service
 hands the validated user id to its handlers as the decimal text of an `X-User-ID`
 header and parses it back, and parses task ids out of the request path the same way.
 */
module Decimal {
  import opened Wrappers

  const MinInt64: int := -0x8000_0000_0000_0000
  const MaxInt64: int := 0x7fff_ffff_ffff_ffff

  /** Go's `int` on a 64-bit platform. */
  type Int64 = n: int | MinInt64 <= n <= MaxInt64

  predicate IsDigit(c: char) {
    '0' <= c <= '9'
  }

  predicate AllDigits(s: string) {
    forall i :: 0 <= i < |s| ==> IsDigit(s[i])
  }

  function DigitValue(c: char): (d: nat)
    requires IsDigit(c)
    ensures d < 10
  {
    c as int - '0' as int
  }

  function DigitChar(d: nat): (c: char)
    requires d < 10
    ensures IsDigit(c) && DigitValue(c) == d
  {
    ('0' as int + d) as char
  }

  /** The value of a run of decimal digits, most significant digit first. */
  function DigitsValue(s: string): nat
    requires AllDigits(s)
  {
    if |s| == 0 then 0 else DigitsValue(s[..|s| - 1]) * 10 + DigitValue(s[|s| - 1])
  }

  /** The shortest decimal rendering of a natural number: no leading zero except for 0 itself. */
  function NatToDigits(n: nat): (s: string)
    ensures |s| > 0 && AllDigits(s)
    ensures s[0] == '0' ==> n == 0
    decreases n
  {
    if n < 10 then [DigitChar(n)] else NatToDigits(n / 10) + [DigitChar(n % 10)]
  }

  /** `strconv.Itoa`: a minus sign for negative numbers, then the shortest digit run. */
  function Itoa(n: int): (s: string)
    ensures |s| > 0
    ensures s[0] == '-' <==> n < 0
    ensures n >= 0 ==> AllDigits(s)
  {
    if n < 0 then "-" + NatToDigits(-n) else NatToDigits(n)
  }

  /**
   `strconv.Atoi`: an optional `+` or `-`, then at least one decimal digit, and a
   value that fits in 64 bits. Anything else (empty text, a sign alone, any other
   character, overflow) is an error, modelled as `None`.
   */
  function Atoi(s: string): (r: Option<Int64>)
    ensures |s| == 0 || s == "+" || s == "-" ==> r.None?
    ensures 0 < |s| && s[0] != '-' && s[0] != '+' ==>
      && (r.Some? <==> AllDigits(s) && DigitsValue(s) <= MaxInt64)
      && (r.Some? ==> r.value == DigitsValue(s))
    ensures 1 < |s| && s[0] == '+' ==>
      && (r.Some? <==> AllDigits(s[1..]) && DigitsValue(s[1..]) <= MaxInt64)
      && (r.Some? ==> r.value == DigitsValue(s[1..]))
    ensures 1 < |s| && s[0] == '-' ==>
      && (r.Some? <==> AllDigits(s[1..]) && DigitsValue(s[1..]) <= -MinInt64)
      && (r.Some? ==> r.value == -(DigitsValue(s[1..]) as int))
    ensures r.Some? && r.value < 0 ==> s[0] == '-'
  {
    if |s| == 0 then None
    else
      var body := if s[0] == '-' || s[0] == '+' then s[1..] else s;
      if |body| == 0 || !AllDigits(body) then None
      else
        var v: int := DigitsValue(body);
        var n: int := if s[0] == '-' then -v else v;
        if MinInt64 <= n <= MaxInt64 then Some(n) else None
  }

  /** A character other than a digit anywhere after the optional sign makes the text invalid. */
  lemma NonDigitRejected(s: string, i: nat)
    requires i < |s| && !IsDigit(s[i])
    requires i > 0 || (s[0] != '-' && s[0] != '+')
    ensures Atoi(s).None?
  {
  }

  /** Reading back the digits of `n` gives `n`. */
  lemma {:induction false} DigitsRoundTrip(n: nat)
    ensures DigitsValue(NatToDigits(n)) == n
    decreases n
  {
    if n >= 10 {
      var s := NatToDigits(n);
      var init := NatToDigits(n / 10);
      assert s == init + [DigitChar(n % 10)];
      assert s[..|s| - 1] == init;
      DigitsRoundTrip(n / 10);
    }
  }

  /** The `X-User-ID` round trip: parsing the decimal text of any 64-bit integer gives it back. */
  lemma AtoiItoa(n: Int64)
    ensures Atoi(Itoa(n)) == Some(n)
  {
    if n < 0 {
      DigitsRoundTrip(-(n as int));
      assert Itoa(n)[1..] == NatToDigits(-(n as int));
    } else {
      DigitsRoundTrip(n);
    }
  }
}

=== FILE: flows.dfy ===
/**
 The services together: a token issued by the auth service, presented to the task
 service, validated by the auth service on the task service's behalf, and the
 caller's id reaching the task handler.
 */
module Flows {
  import opened Wrappers
  import opened Decimal
  import opened Http
  import opened Bearer
  import AuthService
  import Tasks
  import TaskService

  /**
   The validate endpoint's reply as the task service decodes it: the status as sent,
   and a body only for a 200, whose `user_id` must fit a Go `int`.
   */
  function IssuerReply(r: AuthService.Response): (v: TaskService.ValidationReply)
    ensures v.Reply? && v.status == r.status
    ensures v.body.Some? <==> r.body.Validated? && MinInt64 <= r.body.userId <= MaxInt64
    ensures v.body.Some? ==> v.body.value == TaskService.ValidationBody(true, r.body.userId, r.body.username)
  {
    match r.body
    case Validated(userId, username) =>
      if MinInt64 <= userId <= MaxInt64 then
        TaskService.Reply(r.status, Some(TaskService.ValidationBody(true, userId, username)))
      else
        TaskService.Reply(r.status, None)
    case _ => TaskService.Reply(r.status, None)
  }

  /** The auth service's validate endpoint, seen from the task service. */
  function Issuer(parse: string -> Option<AuthService.Claims>): string -> TaskService.ValidationReply
  {
    header => IssuerReply(AuthService.ValidateToken(header, parse))
  }

  /**
   The JWT library's behaviour, at the moment `at` when `parse` runs, on tokens the
   service itself signed: a token whose claims are inside their validity window
   (not before `notBefore`, strictly before `expiresAt`) is non-empty and parses
   back to the claims it was made from. Nothing is assumed about any other token.
   */
  ghost predicate SignedTokensParse(sign: AuthService.Claims -> Option<string>, parse: string -> Option<AuthService.Claims>, at: int) {
    forall c :: sign(c).Some? && c.notBefore <= at < c.expiresAt ==> |sign(c).value| > 0 && parse(sign(c).value) == Some(c)
  }

  /**
   The other half of the library's window check at moment `at`: a token the service
   signed whose claims are outside their validity window is non-empty and is refused.
   */
  ghost predicate SignedTokensExpire(sign: AuthService.Claims -> Option<string>, parse: string -> Option<AuthService.Claims>, at: int) {
    forall c :: sign(c).Some? && !(c.notBefore <= at < c.expiresAt) ==> |sign(c).value| > 0 && parse(sign(c).value).None?
  }

  /**
   The token the auth service parses is the one the middleware extracted: the
   middleware strips the scheme and sends it back in front, and the auth service
   strips it again.
   */
  lemma ForwardedTokenUnchanged(authorization: string)
    requires authorization != ""
    ensures StripBearer(Scheme + StripBearer(authorization)) == StripBearer(authorization)
  {
  }

  /** A user who just registered can log in with the same password and gets their own record back. */
  lemma RegisterThenLogin(t: AuthService.UserTable, req: AuthService.RegisterRequest,
                          hash: string -> Option<AuthService.Digest>, matches: (AuthService.Digest, string) -> bool,
                          sign: AuthService.Claims -> Option<string>, now: int, later: int)
    requires AuthService.Valid(t)
    requires AuthService.HashesVerify(hash, matches)
    requires forall c :: sign(c).Some?
    requires AuthService.Register(t, Some(req), hash, sign, now).response.status == StatusCreated
    ensures var registered := AuthService.Register(t, Some(req), hash, sign, now);
      var r := AuthService.Login(registered.table, Some(AuthService.LoginRequest(req.username, req.password)), matches, sign, later);
      && r.status == StatusOK
      && r.body.Issued?
      && r.body.user == registered.response.body.user
  {
    var registered := AuthService.Register(t, Some(req), hash, sign, now);
    var id := t.nextId;
    var t' := registered.table;
    assert id in t'.rows && t'.rows[id].user.username == req.username;
    assert t'.rows[id].passwordHash == hash(req.password).value;
    assert sign(AuthService.IssueClaims(id, req.username, later)).Some?;
    var r := AuthService.Login(t', Some(AuthService.LoginRequest(req.username, req.password)), matches, sign, later);
    assert r.status == StatusOK;
    assert r.body.user.id == id;
  }

  /**
   Registering the same username twice: the second attempt is a 409, or the 500 of a
   failed INSERT once the first took the last id, and leaves the one stored user.
   */
  lemma RegisterTwiceConflicts(t: AuthService.UserTable, first: AuthService.RegisterRequest, second: AuthService.RegisterRequest,
                               hash: string -> Option<AuthService.Digest>, sign: AuthService.Claims -> Option<string>,
                               now: int, later: int)
    requires AuthService.Valid(t)
    requires second.username == first.username && second.email != "" && second.password != ""
    requires hash(second.password).Some?
    requires AuthService.Register(t, Some(first), hash, sign, now).table != t
    ensures var t1 := AuthService.Register(t, Some(first), hash, sign, now).table;
      var h := AuthService.Register(t1, Some(second), hash, sign, later);
      && (t1.nextId <= MaxInt64 ==>
            h.response == AuthService.Response(StatusConflict, AuthService.Message("Username or email already exists")))
      && (t1.nextId > MaxInt64 ==>
            h.response == AuthService.Response(StatusInternalServerError, AuthService.Message("Failed to create user")))
      && h.table == t1
      && |t1.rows| == |t.rows| + 1
  {
    var t1 := AuthService.Register(t, Some(first), hash, sign, now).table;
    assert t.nextId in t1.rows && t1.rows[t.nextId].user.username == second.username;
    assert AuthService.Taken(t1, second.username, second.email);
  }

  /** The token returned by a successful registration resolves to the newly stored user. */
  lemma RegisteredTokenResolves(t: AuthService.UserTable, req: AuthService.RegisterRequest,
                                hash: string -> Option<AuthService.Digest>,
                                sign: AuthService.Claims -> Option<string>, parse: string -> Option<AuthService.Claims>,
                                now: int, at: int)
    requires AuthService.Valid(t)
    requires now <= at < now + AuthService.TokenLifetime && SignedTokensParse(sign, parse, at)
    requires AuthService.Register(t, Some(req), hash, sign, now).response.status == StatusCreated
    ensures var h := AuthService.Register(t, Some(req), hash, sign, now);
      AuthService.GetUser(h.table, Scheme + h.response.body.token, parse) ==
        AuthService.Response(StatusOK, AuthService.Profile(h.response.body.user))
  {
    var h := AuthService.Register(t, Some(req), hash, sign, now);
    StripRoundTrip(h.response.body.token);
  }

  /** A token from a successful login validates as that user at the validate endpoint. */
  lemma IssuedTokenValidates(t: AuthService.UserTable, req: AuthService.LoginRequest,
                             matches: (AuthService.Digest, string) -> bool,
                             sign: AuthService.Claims -> Option<string>, parse: string -> Option<AuthService.Claims>,
                             now: int, at: int)
    requires AuthService.Valid(t)
    requires now <= at < now + AuthService.TokenLifetime && SignedTokensParse(sign, parse, at)
    requires AuthService.Login(t, Some(req), matches, sign, now).status == StatusOK
    ensures var r := AuthService.Login(t, Some(req), matches, sign, now);
      AuthService.ValidateToken(Scheme + r.body.token, parse) ==
        AuthService.Response(StatusOK, AuthService.Validated(r.body.user.id, r.body.user.username))
  {
  }

  /**
   A login token validates exactly during the 24 hours after the login: from the
   moment it is issued (its not-before) up to, but not including, its expiry.
   */
  lemma LoginTokenLifetime(t: AuthService.UserTable, req: AuthService.LoginRequest,
                           matches: (AuthService.Digest, string) -> bool,
                           sign: AuthService.Claims -> Option<string>, parse: string -> Option<AuthService.Claims>,
                           now: int, at: int)
    requires AuthService.Valid(t)
    requires SignedTokensParse(sign, parse, at) && SignedTokensExpire(sign, parse, at)
    requires AuthService.Login(t, Some(req), matches, sign, now).status == StatusOK
    ensures var r := AuthService.Login(t, Some(req), matches, sign, now);
      AuthService.ValidateToken(Scheme + r.body.token, parse).status == StatusOK <==> now <= at < now + AuthService.TokenLifetime
  {
  }

  /** The task service's validation of a token the auth service can parse yields the claims' user. */
  lemma ParsedTokenValidates(token: string, parse: string -> Option<AuthService.Claims>, claims: AuthService.Claims)
    requires |token| > 0 && parse(token) == Some(claims)
    requires MinInt64 <= claims.userId <= MaxInt64
    ensures TaskService.ValidateToken(token, Issuer(parse)) == Some(claims.userId)
  {
    StripRoundTrip(token);
    assert AuthService.ValidateToken(Scheme + token, parse) ==
      AuthService.Response(StatusOK, AuthService.Validated(claims.userId, claims.username));
  }

  /** A request presenting `Bearer <token>` for a token that validates runs its handler as that user. */
  lemma ValidTokenReachesHandler(tasks: Tasks.TaskTable, token: string, issuer: string -> TaskService.ValidationReply,
                                 userId: Int64, req: TaskService.Request, now: int)
    requires Tasks.Valid(tasks)
    requires |token| > 0 && TaskService.ValidateToken(token, issuer) == Some(userId)
    ensures var s := TaskService.Serve(tasks, Scheme + token, issuer, req, now);
      && s.issuerCall == Some(Scheme + token)
      && Tasks.Handled(s.response, s.table) == TaskService.Dispatch(tasks, Itoa(userId), req, now)
  {
  }

  /**
   End to end: a task request carrying `Bearer <token>` from a successful login, made
   within 24 hours of the login, is admitted after one call to the auth service, and
   runs its handler as that user.
   */
  lemma LoggedInUserReachesHandler(users: AuthService.UserTable, login: AuthService.LoginRequest,
                                   matches: (AuthService.Digest, string) -> bool,
                                   sign: AuthService.Claims -> Option<string>, parse: string -> Option<AuthService.Claims>,
                                   tasks: Tasks.TaskTable, req: TaskService.Request, now: int, later: int)
    requires AuthService.Valid(users) && Tasks.Valid(tasks)
    requires now <= later < now + AuthService.TokenLifetime && SignedTokensParse(sign, parse, later)
    requires AuthService.Login(users, Some(login), matches, sign, now).status == StatusOK
    ensures var r := AuthService.Login(users, Some(login), matches, sign, now);
      var header := Scheme + r.body.token;
      var s := TaskService.Serve(tasks, header, Issuer(parse), req, later);
      && s.issuerCall == Some(header)
      && Tasks.Handled(s.response, s.table) == TaskService.Dispatch(tasks, Itoa(r.body.user.id), req, later)
      && Atoi(Itoa(r.body.user.id)) == Some(r.body.user.id)
  {
    var r := AuthService.Login(users, Some(login), matches, sign, now);
    var user := r.body.user;
    var claims := AuthService.IssueClaims(user.id, user.username, now);
    assert sign(claims) == Some(r.body.token);
    assert MinInt64 <= user.id <= MaxInt64;
    ParsedTokenValidates(r.body.token, parse, claims);
    ValidTokenReachesHandler(tasks, r.body.token, Issuer(parse), user.id, req, later);
    AtoiItoa(user.id);
  }

  /** A task created with a token that validates as `userId` belongs to `userId`, and is stored as returned. */
  lemma CreatedTaskBelongsToCaller(tasks: Tasks.TaskTable, token: string, issuer: string -> TaskService.ValidationReply,
                                   userId: Int64, body: Tasks.CreateTaskRequest, now: int)
    requires Tasks.Valid(tasks)
    requires |token| > 0 && TaskService.ValidateToken(token, issuer) == Some(userId)
    requires body.title != "" && tasks.nextId <= MaxInt64
    ensures var s := TaskService.Serve(tasks, Scheme + token, issuer, TaskService.CreateOne(Some(body)), now);
      && s.response.status == StatusCreated
      && s.response.body.One?
      && s.response.body.task.userId == userId
      && s.response.body.task.id in s.table.rows
      && s.table.rows[s.response.body.task.id] == s.response.body.task
  {
  }
}

=== FILE: http.dfy ===
/** The HTTP status codes the three services answer with. */
module Http {

  const StatusOK: int := 200
  const StatusCreated: int := 201
  const StatusNoContent: int := 204
  const StatusBadRequest: int := 400
  const StatusUnauthorized: int := 401
  const StatusNotFound: int := 404
  const StatusConflict: int := 409
  const StatusInternalServerError: int := 500

  /** The range a webhook delivery counts as successful in. */
  predicate IsSuccess(status: int) {
    200 <= status < 300
  }
}

=== FILE: notifications.dfy ===
/**
 The notification service: the in-memory webhook registry (event name to the URLs
 registered for it, in registration order, duplicates kept), the fan-out of one
 event to every registered URL, and the handlers that raise events.

 Fan-out is modelled as the list of delivery attempts it starts, one per registered
 URL; the outbound POST is a parameter `post`, and the goroutines, the 10 second
 client timeout and the log lines are not modelled.
 */
module Notifications {
  import opened Wrappers
  import opened Decimal
  import opened Http

  const DefaultKind: string := "info"
  const NotificationCreated: string := "notification.created"
  const NotificationRead: string := "notification.read"
  const NotificationsReadAll: string := "notifications.read_all"

  /** `webhooks`: event name to registered URLs. */
  type Registry = map<string, seq<string>>

  datatype Notification = Notification(id: int, userId: Int64, title: string, message: string,
                                       kind: string, read: bool, createdAt: int)

  datatype WebhookRegistration = WebhookRegistration(event: string, url: string)

  datatype CreateNotificationRequest = CreateNotificationRequest(userId: Int64, title: string, message: string, kind: string)

  /** The data of a `notification.read` event. */
  datatype ReadEvent = ReadEvent(notificationId: int, timestamp: int)

  /** The data of a `notifications.read_all` event. */
  datatype ReadAllEvent = ReadAllEvent(timestamp: int)

  /** The JSON body POSTed to every webhook: `{event, data}`. */
  datatype Payload<D> = Payload(event: string, data: D)

  /** One delivery: a POST of `payload` to `url`. */
  datatype Attempt<D> = Attempt(url: string, payload: Payload<D>)

  datatype Body =
    | Message(text: string)
    | Registered(event: string, url: string)
    | Triggered(event: string)
    | Created(notification: Notification)
    | Done(status: string)

  datatype Response = Response(status: int, body: Body)

  /** The URLs registered for `event`; an event nobody registered for has none. */
  function Subscribers(reg: Registry, event: string): (urls: seq<string>)
    ensures event !in reg ==> urls == []
    ensures event in reg ==> urls == reg[event]
  {
    if event in reg then reg[event] else []
  }

  /* ---------------------------------------------------------- registration */

  datatype Registration = Registration(response: Response, registry: Registry)

  /**
   `registerWebhookHandler`: both fields are required; the URL is appended to the
   event's list, duplicates and all, and no other event's list changes.
   */
  function RegisterWebhook(reg: Registry, req: Option<WebhookRegistration>): (r: Registration)
    ensures req.None? ==> r == Registration(Response(StatusBadRequest, Message("Invalid request body")), reg)
    ensures req.Some? && (req.value.event == "" || req.value.url == "") ==>
      r == Registration(Response(StatusBadRequest, Message("Event and URL are required")), reg)
    ensures r.response.status == StatusCreated <==> req.Some? && req.value.event != "" && req.value.url != ""
    ensures r.response.status != StatusCreated ==> r.registry == reg
    ensures r.response.status == StatusCreated ==>
      && r.registry.Keys == reg.Keys + {req.value.event}
      && Subscribers(r.registry, req.value.event) == Subscribers(reg, req.value.event) + [req.value.url]
      && (forall e :: e != req.value.event ==> Subscribers(r.registry, e) == Subscribers(reg, e))
      && r.response.body == Registered(req.value.event, req.value.url)
  {
    match req
    case None => Registration(Response(StatusBadRequest, Message("Invalid request body")), reg)
    case Some(w) =>
      if w.event == "" || w.url == "" then
        Registration(Response(StatusBadRequest, Message("Event and URL are required")), reg)
      else
        Registration(Response(StatusCreated, Registered(w.event, w.url)),
                     reg[w.event := Subscribers(reg, w.event) + [w.url]])
  }

  /** Registration requests the handler accepts: both fields non-empty. */
  predicate Accepted(w: WebhookRegistration) {
    w.event != "" && w.url != ""
  }

  /** The registry after handling the registration requests `ws` in order, starting from `reg`. */
  function RegisterAll(reg: Registry, ws: seq<WebhookRegistration>): Registry {
    if |ws| == 0 then reg
    else RegisterWebhook(RegisterAll(reg, ws[..|ws| - 1]), Some(ws[|ws| - 1])).registry
  }

  /** The URLs of the accepted requests in `ws` for `event`, in request order. */
  function UrlsFor(ws: seq<WebhookRegistration>, event: string): seq<string> {
    if |ws| == 0 then []
    else
      var w := ws[|ws| - 1];
      UrlsFor(ws[..|ws| - 1], event) + (if Accepted(w) && w.event == event then [w.url] else [])
  }

  /**
   After a sequence of registrations, an event's subscribers are the ones it had,
   followed by the URLs accepted for it, in the order they were registered.
   */
  lemma {:induction false} SubscribersAfterRegistrations(reg: Registry, ws: seq<WebhookRegistration>, event: string)
    ensures Subscribers(RegisterAll(reg, ws), event) == Subscribers(reg, event) + UrlsFor(ws, event)
    decreases |ws|
  {
    if |ws| > 0 {
      var init := ws[..|ws| - 1];
      SubscribersAfterRegistrations(reg, init, event);
    }
  }

  /**
   The notification id rule counts events, not registrations: a registration raises
   the next id only when it is accepted and is the first for its event.
   */
  lemma NextIdAfterRegistration(reg: Registry, w: WebhookRegistration)
    ensures NextNotificationId(RegisterWebhook(reg, Some(w)).registry) ==
      NextNotificationId(reg) + (if Accepted(w) && w.event !in reg then 1 else 0)
  {
  }

  /* --------------------------------------------------------------- fan-out */

  /** One attempt per URL, in list order, all carrying the same payload. */
  function FanOut<D>(urls: seq<string>, payload: Payload<D>): (attempts: seq<Attempt<D>>)
    ensures |attempts| == |urls|
    ensures forall i :: 0 <= i < |urls| ==> attempts[i] == Attempt(urls[i], payload)
  {
    if |urls| == 0 then [] else [Attempt(urls[0], payload)] + FanOut(urls[1..], payload)
  }

  /**
   `triggerWebhooks`: a read-only lookup that yields one attempt per registered URL,
   with multiplicity, each POSTing `{event, data}`.
   */
  function Trigger<D>(reg: Registry, event: string, data: D): (attempts: seq<Attempt<D>>)
    ensures event !in reg ==> attempts == []
    ensures |attempts| == |Subscribers(reg, event)|
    ensures forall i :: 0 <= i < |attempts| ==>
      attempts[i].url == Subscribers(reg, event)[i] && attempts[i].payload == Payload(event, data)
  {
    FanOut(Subscribers(reg, event), Payload(event, data))
  }

  /** The URLs an attempt list POSTs to, in order. */
  function Targets<D>(attempts: seq<Attempt<D>>): (urls: seq<string>)
    ensures |urls| == |attempts|
    ensures forall i :: 0 <= i < |attempts| ==> urls[i] == attempts[i].url
  {
    if |attempts| == 0 then [] else [attempts[0].url] + Targets(attempts[1..])
  }

  /** Every registered URL is POSTed to as many times as it is registered. */
  lemma TriggerKeepsMultiplicity<D>(reg: Registry, event: string, data: D)
    ensures multiset(Targets(Trigger(reg, event, data))) == multiset(Subscribers(reg, event))
  {
    assert Targets(Trigger(reg, event, data)) == Subscribers(reg, event);
  }

  /** Registering the same URL twice for an event makes the next trigger POST to it twice more. */
  lemma {:induction false} DuplicateRegistrationDuplicatesDelivery<D>(reg: Registry, event: string, url: string, data: D)
    requires event != "" && url != ""
    ensures var once := RegisterWebhook(reg, Some(WebhookRegistration(event, url))).registry;
      var twice := RegisterWebhook(once, Some(WebhookRegistration(event, url))).registry;
      multiset(Targets(Trigger(twice, event, data)))[url] == multiset(Targets(Trigger(reg, event, data)))[url] + 2
  {
    var once := RegisterWebhook(reg, Some(WebhookRegistration(event, url))).registry;
    var twice := RegisterWebhook(once, Some(WebhookRegistration(event, url))).registry;
    TriggerKeepsMultiplicity(reg, event, data);
    TriggerKeepsMultiplicity(twice, event, data);
    assert Subscribers(twice, event) == Subscribers(reg, event) + [url] + [url];
  }

  /* -------------------------------------------------------------- delivery */

  /** What one POST produced: no response at all, or a status code. */
  datatype PostResult = TransportFailed | Answered(statusCode: int)

  /** How a delivery is logged. */
  datatype Delivery = Delivered(url: string) | Rejected(url: string, statusCode: int) | Unsent(url: string)

  /** A delivery succeeded exactly when the webhook answered with a 2xx status. */
  function Classify(url: string, result: PostResult): (d: Delivery)
    ensures d.url == url
    ensures d.Delivered? <==> result.Answered? && IsSuccess(result.statusCode)
    ensures d.Unsent? <==> result.TransportFailed?
  {
    match result
    case TransportFailed => Unsent(url)
    case Answered(code) => if IsSuccess(code) then Delivered(url) else Rejected(url, code)
  }

  /**
   The outcome of every attempt. `post(i, a)` is what the POST started for the `i`th
   attempt `a` produced: each entry has its own goroutine and its own request, so two
   attempts to the same URL with the same payload can still end differently. A
   failure is only logged, and no attempt is dropped, added or altered by another.
   */
  function Deliver<D>(attempts: seq<Attempt<D>>, post: (nat, Attempt<D>) -> PostResult): (log: seq<Delivery>)
    ensures |log| == |attempts|
    ensures forall i :: 0 <= i < |attempts| ==> log[i] == Classify(attempts[i].url, post(i, attempts[i]))
  {
    if |attempts| == 0 then []
    else
      var last := |attempts| - 1;
      Deliver(attempts[..last], post) + [Classify(attempts[last].url, post(last, attempts[last]))]
  }

  /**
   Deliveries are independent: two runs of the same attempts whose POSTs answered the
   same for attempt `i` log the same outcome for it, whatever happened to the others.
   */
  lemma DeliveriesIndependent<D>(attempts: seq<Attempt<D>>, post1: (nat, Attempt<D>) -> PostResult,
                                 post2: (nat, Attempt<D>) -> PostResult, i: int)
    requires 0 <= i < |attempts|
    requires post1(i, attempts[i]) == post2(i, attempts[i])
    ensures Deliver(attempts, post1)[i] == Deliver(attempts, post2)[i]
  {
  }

  /**
   A URL registered twice gets two separate POSTs: the first may be delivered while
   the second never reaches the webhook.
   */
  lemma DuplicateDeliveriesCanDiffer<D>(url: string, data: D)
    ensures var attempts := [Attempt(url, Payload("e", data)), Attempt(url, Payload("e", data))];
      var post := (i: nat, a: Attempt<D>) => if i == 0 then Answered(StatusOK) else TransportFailed;
      Deliver(attempts, post) == [Delivered(url), Unsent(url)]
  {
  }

  /* --------------------------------------------------------- notifications */

  /** A handler's response together with the deliveries it starts. */
  datatype Raised<D> = Raised(response: Response, attempts: seq<Attempt<D>>)

  /** The demo id rule: one more than the number of distinct events with webhooks. */
  function NextNotificationId(reg: Registry): (id: int)
    ensures id >= 1
    ensures id == |reg.Keys| + 1
  {
    |reg| + 1
  }

  /**
   `createNotificationHandler`: title and message are required; the notification is
   unread, keeps the request's type as given, and is announced as `notification.created`.
   */
  function CreateNotification(reg: Registry, req: Option<CreateNotificationRequest>, now: int): (r: Raised<Notification>)
    ensures req.None? ==> r == Raised(Response(StatusBadRequest, Message("Invalid request body")), [])
    ensures req.Some? && (req.value.title == "" || req.value.message == "") ==>
      r == Raised(Response(StatusBadRequest, Message("Title and message are required")), [])
    ensures r.response.status == StatusCreated <==> req.Some? && req.value.title != "" && req.value.message != ""
    ensures r.response.status == StatusCreated ==>
      && r.response.body.Created?
      && var n := r.response.body.notification;
         && n == Notification(|reg| + 1, req.value.userId, req.value.title, req.value.message, req.value.kind, false, now)
         && Targets(r.attempts) == Subscribers(reg, NotificationCreated)
         && forall i :: 0 <= i < |r.attempts| ==> r.attempts[i].payload == Payload(NotificationCreated, n)
  {
    match req
    case None => Raised(Response(StatusBadRequest, Message("Invalid request body")), [])
    case Some(q) =>
      if q.title == "" || q.message == "" then
        Raised(Response(StatusBadRequest, Message("Title and message are required")), [])
      else
        var n := Notification(NextNotificationId(reg), q.userId, q.title, q.message, q.kind, false, now);
        Raised(Response(StatusCreated, Created(n)), Trigger(reg, NotificationCreated, n))
  }

  /**
   The id depends on the registry alone: two notifications created while the
   registry is the same get the same id, both announced as `notification.created`.
   */
  lemma NotificationIdsRepeat(reg: Registry, first: CreateNotificationRequest, second: CreateNotificationRequest,
                              now: int, later: int)
    requires first.title != "" && first.message != "" && second.title != "" && second.message != ""
    ensures CreateNotification(reg, Some(first), now).response.body.Created?
    ensures CreateNotification(reg, Some(second), later).response.body.Created?
    ensures CreateNotification(reg, Some(first), now).response.body.notification.id ==
            CreateNotification(reg, Some(second), later).response.body.notification.id
  {
  }

  /**
   `demoSendNotificationHandler`: no title or message check, an empty type becomes
   `"info"`, and the same id rule and event as a created notification.
   */
  function DemoSendNotification(reg: Registry, req: Option<CreateNotificationRequest>, now: int): (r: Raised<Notification>)
    ensures req.None? ==> r == Raised(Response(StatusBadRequest, Message("Invalid request body")), [])
    ensures req.Some? ==>
      && r.response.status == StatusCreated
      && r.response.body.Created?
      && var n := r.response.body.notification;
         && n == Notification(|reg| + 1, req.value.userId, req.value.title, req.value.message,
                              if req.value.kind == "" then DefaultKind else req.value.kind, false, now)
         && Targets(r.attempts) == Subscribers(reg, NotificationCreated)
         && forall i :: 0 <= i < |r.attempts| ==> r.attempts[i].payload == Payload(NotificationCreated, n)
  {
    match req
    case None => Raised(Response(StatusBadRequest, Message("Invalid request body")), [])
    case Some(q) =>
      var kind := if q.kind == "" then DefaultKind else q.kind;
      var n := Notification(NextNotificationId(reg), q.userId, q.title, q.message, kind, false, now);
      Raised(Response(StatusCreated, Created(n)), Trigger(reg, NotificationCreated, n))
  }

  /** With a title, a message and a type given, the demo send does exactly what creating a notification does. */
  lemma DemoSendAgreesWithCreate(reg: Registry, q: CreateNotificationRequest, now: int)
    requires q.title != "" && q.message != "" && q.kind != ""
    ensures DemoSendNotification(reg, Some(q), now) == CreateNotification(reg, Some(q), now)
  {
  }

  /** A request that creating a notification refuses for a missing title or message is still sent by the demo endpoint. */
  lemma DemoSendSkipsValidation(reg: Registry, q: CreateNotificationRequest, now: int)
    requires q.title == "" || q.message == ""
    ensures CreateNotification(reg, Some(q), now).response.status == StatusBadRequest
    ensures DemoSendNotification(reg, Some(q), now).response.status == StatusCreated
    ensures Targets(DemoSendNotification(reg, Some(q), now).attempts) == Subscribers(reg, NotificationCreated)
  {
  }

  /** `triggerWebhookHandler`: any decodable body is fanned out under the path's event name. */
  function TriggerWebhook<D>(reg: Registry, event: string, body: Option<D>): (r: Raised<D>)
    ensures body.None? ==> r == Raised(Response(StatusBadRequest, Message("Invalid request body")), [])
    ensures body.Some? ==>
      && r.response == Response(StatusOK, Triggered(event))
      && Targets(r.attempts) == Subscribers(reg, event)
      && forall i :: 0 <= i < |r.attempts| ==> r.attempts[i].payload == Payload(event, body.value)
  {
    match body
    case None => Raised(Response(StatusBadRequest, Message("Invalid request body")), [])
    case Some(data) => Raised(Response(StatusOK, Triggered(event)), Trigger(reg, event, data))
  }

  /** `markAsReadHandler`: a numeric id is announced as `notification.read`; nothing is stored. */
  function MarkAsRead(reg: Registry, idParam: string, now: int): (r: Raised<ReadEvent>)
    ensures Atoi(idParam).None? ==> r == Raised(Response(StatusBadRequest, Message("Invalid notification ID")), [])
    ensures Atoi(idParam).Some? ==>
      && r.response == Response(StatusOK, Done("marked as read"))
      && Targets(r.attempts) == Subscribers(reg, NotificationRead)
      && forall i :: 0 <= i < |r.attempts| ==>
           r.attempts[i].payload == Payload(NotificationRead, ReadEvent(Atoi(idParam).value, now))
  {
    match Atoi(idParam)
    case None => Raised(Response(StatusBadRequest, Message("Invalid notification ID")), [])
    case Some(id) =>
      Raised(Response(StatusOK, Done("marked as read")), Trigger(reg, NotificationRead, ReadEvent(id, now)))
  }

  /** `markAllAsReadHandler`: always announces `notifications.read_all`; nothing is stored. */
  function MarkAllAsRead(reg: Registry, now: int): (r: Raised<ReadAllEvent>)
    ensures r.response == Response(StatusOK, Done("all marked as read"))
    ensures Targets(r.attempts) == Subscribers(reg, NotificationsReadAll)
    ensures forall i :: 0 <= i < |r.attempts| ==> r.attempts[i].payload == Payload(NotificationsReadAll, ReadAllEvent(now))
  {
    Raised(Response(StatusOK, Done("all marked as read")), Trigger(reg, NotificationsReadAll, ReadAllEvent(now)))
  }

  /**
   Two sinks registered for `task.created` both receive `{event: "task.created", data}`
   when the event is triggered, in registration order.
   */
  lemma TwoSinksScenario(data: map<string, int>)
    ensures var reg1 := RegisterWebhook(map[], Some(WebhookRegistration("task.created", "http://sink-a"))).registry;
      var reg2 := RegisterWebhook(reg1, Some(WebhookRegistration("task.created", "http://sink-b"))).registry;
      Trigger(reg2, "task.created", data) ==
        [Attempt("http://sink-a", Payload("task.created", data)), Attempt("http://sink-b", Payload("task.created", data))]
  {
  }
}

=== FILE: task_service.dfy ===
/**
 The task service as a whole: `authMiddleware` in front of every task route, with
 the remote call to the auth service's validate endpoint abstracted as `issuer`, a
 function from the `Authorization` header the task service sends to the reply it
 gets back.
 */
module TaskService {
  import opened Wrappers
  import opened Decimal
  import opened Http
  import opened Bearer
  import opened Tasks

  /** The decoded JSON body of a validate reply; `user_id` decodes into a Go `int`. */
  datatype ValidationBody = ValidationBody(valid: bool, userId: Int64, username: string)

  /**
   What the call to the validate endpoint produced: no reply at all (request or
   transport error, timeout), or a status with a body that did or did not decode.
   */
  datatype ValidationReply = TransportError | Reply(status: int, body: Option<ValidationBody>)

  /**
   `validateToken`: the token is sent back with the scheme in front, and only a 200
   whose body decodes with `valid` true yields its user id.
   */
  function ValidateToken(token: string, issuer: string -> ValidationReply): (r: Option<Int64>)
    ensures r.Some? <==>
      var reply := issuer(Scheme + token);
      reply.Reply? && reply.status == StatusOK && reply.body.Some? && reply.body.value.valid
    ensures r.Some? ==> r.value == issuer(Scheme + token).body.value.userId
  {
    match issuer(Scheme + token)
    case TransportError => None
    case Reply(status, body) =>
      if status != StatusOK then None
      else match body
        case None => None
        case Some(b) => if !b.valid then None else Some(b.userId)
  }

  /** Whether the middleware lets the request through, and with which `X-User-ID` header. */
  datatype Gate = Denied(reason: string) | Admitted(userHeader: string)

  /** The middleware's decision, with the header it sent to the auth service, if it called it. */
  datatype Screening = Screening(gate: Gate, issuerCall: Option<string>)

  /**
   `authMiddleware`: no header is refused before the auth service is asked; otherwise
   the stripped token is validated and a valid one becomes the `X-User-ID` header.
   */
  function Screen(authorization: string, issuer: string -> ValidationReply): (s: Screening)
    ensures authorization == "" ==> s == Screening(Denied("Authorization header required"), None)
    ensures authorization != "" ==> s.issuerCall == Some(Scheme + StripBearer(authorization))
    ensures s.gate.Admitted? <==> authorization != "" && ValidateToken(StripBearer(authorization), issuer).Some?
    ensures s.gate.Admitted? ==> Atoi(s.gate.userHeader) == ValidateToken(StripBearer(authorization), issuer)
    ensures s.gate.Admitted? ==> s.gate.userHeader == Itoa(ValidateToken(StripBearer(authorization), issuer).value)
    ensures s.gate.Denied? && authorization != "" ==> s.gate == Denied("Invalid token")
  {
    if authorization == "" then Screening(Denied("Authorization header required"), None)
    else
      var token := StripBearer(authorization);
      match ValidateToken(token, issuer)
      case None => Screening(Denied("Invalid token"), Some(Scheme + token))
      case Some(userId) =>
        AtoiItoa(userId);
        Screening(Admitted(Itoa(userId)), Some(Scheme + token))
  }

  /** The five task routes, with what each reads from the request. */
  datatype Request =
    | GetTasks(statusParam: string, priorityParam: string)
    | CreateOne(createBody: Option<CreateTaskRequest>)
    | GetOne(idParam: string)
    | UpdateOne(idParam: string, updateBody: Option<UpdateTaskRequest>)
    | DeleteOne(idParam: string)

  /** Routes an admitted request to its handler. */
  function Dispatch(t: TaskTable, userHeader: string, req: Request, now: int): (h: Handled)
    requires Valid(t)
    ensures Valid(h.table)
    ensures Atoi(userHeader).None? ==> h == Handled(InvalidUserId, t)
    ensures Atoi(userHeader).Some? ==> h.response != InvalidUserId
    ensures h.response.status != StatusUnauthorized
  {
    match req
    case GetTasks(status, priority) => Handled(ListTasks(t, userHeader, status, priority), t)
    case CreateOne(body) => CreateTask(t, userHeader, body, now)
    case GetOne(idParam) => Handled(GetTask(t, userHeader, idParam), t)
    case UpdateOne(idParam, body) => UpdateTask(t, userHeader, idParam, body)
    case DeleteOne(idParam) => DeleteTask(t, userHeader, idParam)
  }

  /** One request through the middleware and, if admitted, its handler. */
  datatype Served = Served(response: Response, table: TaskTable, issuerCall: Option<string>)

  function Serve(t: TaskTable, authorization: string, issuer: string -> ValidationReply, req: Request, now: int): (s: Served)
    requires Valid(t)
    ensures Valid(s.table)
    ensures authorization == "" ==>
      s == Served(Response(StatusUnauthorized, Message("Authorization header required")), t, None)
    ensures authorization != "" && ValidateToken(StripBearer(authorization), issuer).None? ==>
      s == Served(Response(StatusUnauthorized, Message("Invalid token")), t, Some(Scheme + StripBearer(authorization)))
    ensures s.response.status == StatusUnauthorized <==>
      authorization == "" || ValidateToken(StripBearer(authorization), issuer).None?
    ensures s.response.status == StatusUnauthorized ==> s.table == t
    ensures authorization != "" && ValidateToken(StripBearer(authorization), issuer).Some? ==>
      var userId := ValidateToken(StripBearer(authorization), issuer).value;
      && Handled(s.response, s.table) == Dispatch(t, Itoa(userId), req, now)
      && s.response != InvalidUserId
  {
    var screening := Screen(authorization, issuer);
    match screening.gate
    case Denied(reason) => Served(Response(StatusUnauthorized, Message(reason)), t, screening.issuerCall)
    case Admitted(userHeader) =>
      var h := Dispatch(t, userHeader, req, now);
      Served(h.response, h.table, screening.issuerCall)
  }

  /**
   Only the caller's rows are touched: every other user's task is unchanged, and any
   new row belongs to the caller. A refused request changes nothing.
   */
  lemma OnlyCallersTasksTouched(t: TaskTable, authorization: string, issuer: string -> ValidationReply, req: Request, now: int)
    requires Valid(t)
    ensures var s := Serve(t, authorization, issuer, req, now);
      var caller := ValidateToken(StripBearer(authorization), issuer);
      && (authorization == "" || caller.None? ==> s.table == t)
      && (forall id :: id in t.rows && (authorization == "" || caller.None? || t.rows[id].userId != caller.value) ==>
            id in s.table.rows && s.table.rows[id] == t.rows[id])
      && (forall id :: id in s.table.rows && id !in t.rows ==> caller.Some? && s.table.rows[id].userId == caller.value)
  {
    var caller := ValidateToken(StripBearer(authorization), issuer);
    if authorization != "" && caller.Some? {
      var userHeader := Itoa(caller.value);
      AtoiItoa(caller.value);
      assert Serve(t, authorization, issuer, req, now).table == Dispatch(t, userHeader, req, now).table;
      // One case per route keeps each handler's contract separate.
      match req {
        case GetTasks(_, _) =>
        case CreateOne(body) =>
        case GetOne(_) =>
        case UpdateOne(idParam, body) =>
        case DeleteOne(idParam) =>
      }
    }
  }

  /**
   Another user's task answers exactly as a missing one does: for get, update and
   delete the response is the one the caller would get if that row did not exist,
   and the table is left as it was.
   */
  lemma ForeignTaskLooksMissing(t: TaskTable, userHeader: string, id: int, idParam: string, body: Option<UpdateTaskRequest>, now: int)
    requires Valid(t)
    requires Atoi(userHeader).Some? && Atoi(idParam) == Some(id)
    requires id in t.rows && t.rows[id].userId != Atoi(userHeader).value
    ensures var absent := TaskTable(t.rows - {id}, t.nextId);
      && Valid(absent)
      && Dispatch(t, userHeader, GetOne(idParam), now) == Handled(TaskNotFound, t)
      && Dispatch(absent, userHeader, GetOne(idParam), now).response == TaskNotFound
      && Dispatch(t, userHeader, UpdateOne(idParam, body), now).table == t
      && Dispatch(t, userHeader, UpdateOne(idParam, body), now).response == Dispatch(absent, userHeader, UpdateOne(idParam, body), now).response
      && Dispatch(t, userHeader, DeleteOne(idParam), now) == Handled(TaskNotFound, t)
      && Dispatch(absent, userHeader, DeleteOne(idParam), now).response == TaskNotFound
  {
  }
}

=== FILE: tasks.dfy ===
/**
 The task service's handlers over its `tasks` table. Every handler first reads the
 caller's id from the `X-User-ID` header the middleware set, and every lookup,
 update and delete is scoped to rows whose `user_id` is the caller's.
 */
module Tasks {
  import opened Wrappers
  import opened Decimal
  import opened Http

  const DefaultStatus: string := "pending"
  const DefaultPriority: string := "medium"

  /** A row of `tasks`; `createdAt` is the insertion time the listing orders by. */
  datatype Task = Task(id: int, title: string, description: string, status: string,
                       priority: string, userId: int, createdAt: int)

  /** The `tasks` table: rows by id, and the next AUTOINCREMENT value. */
  datatype TaskTable = TaskTable(rows: map<int, Task>, nextId: int)

  datatype CreateTaskRequest = CreateTaskRequest(title: string, description: string, priority: string)

  datatype UpdateTaskRequest = UpdateTaskRequest(title: string, description: string, status: string, priority: string)

  datatype Body = Message(text: string) | One(task: Task) | Many(tasks: seq<Task>) | NoBody

  datatype Response = Response(status: int, body: Body)

  /** The answer to a request together with the tasks table after it. */
  datatype Handled = Handled(response: Response, table: TaskTable)

  /** Each row is stored under its own id, and ids come from the counter and fit in 64 bits. */
  predicate Valid(t: TaskTable) {
    && 1 <= t.nextId <= MaxInt64 + 1
    && forall id :: id in t.rows ==> t.rows[id].id == id && 1 <= id < t.nextId
  }

  const EmptyTable: TaskTable := TaskTable(map[], 1)

  const InvalidUserId: Response := Response(StatusBadRequest, Message("Invalid user ID"))
  const InvalidTaskId: Response := Response(StatusBadRequest, Message("Invalid task ID"))
  const InvalidBody: Response := Response(StatusBadRequest, Message("Invalid request body"))
  const TaskNotFound: Response := Response(StatusNotFound, Message("Task not found"))

  /** The row `id` if the caller owns it; another user's task is as absent as a missing one. */
  function Owned(t: TaskTable, id: int, caller: int): (r: Option<Task>)
    ensures r.Some? <==> id in t.rows && t.rows[id].userId == caller
    ensures r.Some? ==> r.value == t.rows[id]
  {
    if id in t.rows && t.rows[id].userId == caller then Some(t.rows[id]) else None
  }

  /* ---------------------------------------------------------------- create */

  /**
   `createTaskHandler`: the caller's header, then the body, then a non-empty title;
   an empty priority becomes `"medium"` and the status is the column default
   `"pending"`. An exhausted id counter is a failed INSERT.
   */
  function CreateTask(t: TaskTable, userHeader: string, body: Option<CreateTaskRequest>, now: int): (h: Handled)
    requires Valid(t)
    ensures Valid(h.table)
    ensures h.response.status != StatusCreated ==> h.table == t
    ensures Atoi(userHeader).None? ==> h.response == InvalidUserId
    ensures Atoi(userHeader).Some? && body.None? ==> h.response == InvalidBody
    ensures Atoi(userHeader).Some? && body.Some? && body.value.title == "" ==>
      h.response == Response(StatusBadRequest, Message("Title is required"))
    ensures Atoi(userHeader).Some? && body.Some? && body.value.title != "" && t.nextId > MaxInt64 ==>
      h.response == Response(StatusInternalServerError, Message("Failed to create task"))
    ensures h.response.status == StatusCreated <==>
      Atoi(userHeader).Some? && body.Some? && body.value.title != "" && t.nextId <= MaxInt64
    ensures h.response.status == StatusCreated ==>
      && h.response.body.One?
      && var task := h.response.body.task;
         var req := body.value;
         && task.id == t.nextId && task.id !in t.rows
         && h.table == TaskTable(t.rows[task.id := task], t.nextId + 1)
         && task.userId == Atoi(userHeader).value
         && task.title == req.title && task.description == req.description
         && task.status == DefaultStatus
         && task.priority == (if req.priority == "" then DefaultPriority else req.priority)
         && task.createdAt == now
  {
    match Atoi(userHeader)
    case None => Handled(InvalidUserId, t)
    case Some(caller) =>
      match body
      case None => Handled(InvalidBody, t)
      case Some(req) =>
        if req.title == "" then Handled(Response(StatusBadRequest, Message("Title is required")), t)
        else if t.nextId > MaxInt64 then
          Handled(Response(StatusInternalServerError, Message("Failed to create task")), t)
        else
          var priority := if req.priority == "" then DefaultPriority else req.priority;
          var task := Task(t.nextId, req.title, req.description, DefaultStatus, priority, caller, now);
          Handled(Response(StatusCreated, One(task)), TaskTable(t.rows[task.id := task], t.nextId + 1))
  }

  /* ------------------------------------------------------------------- get */

  /** `getTaskHandler`: the caller's own task, else 404. */
  function GetTask(t: TaskTable, userHeader: string, idParam: string): (r: Response)
    ensures Atoi(userHeader).None? ==> r == InvalidUserId
    ensures Atoi(userHeader).Some? && Atoi(idParam).None? ==> r == InvalidTaskId
    ensures r.status == StatusOK <==>
      && Atoi(userHeader).Some? && Atoi(idParam).Some?
      && Atoi(idParam).value in t.rows && t.rows[Atoi(idParam).value].userId == Atoi(userHeader).value
    ensures r.status == StatusOK ==> r.body == One(t.rows[Atoi(idParam).value])
    ensures r.status != StatusOK && Atoi(userHeader).Some? && Atoi(idParam).Some? ==> r == TaskNotFound
  {
    match Atoi(userHeader)
    case None => InvalidUserId
    case Some(caller) =>
      match Atoi(idParam)
      case None => InvalidTaskId
      case Some(id) =>
        match Owned(t, id, caller)
        case None => TaskNotFound
        case Some(task) => Response(StatusOK, One(task))
  }

  /* ---------------------------------------------------------------- update */

  /**
   `updateTaskHandler`: after the header, id and body checks and the ownership check,
   title, description, status and priority are all overwritten with the request's
   values, empty strings included; the id, owner and creation time stay.
   */
  function UpdateTask(t: TaskTable, userHeader: string, idParam: string, body: Option<UpdateTaskRequest>): (h: Handled)
    requires Valid(t)
    ensures Valid(h.table)
    ensures h.response.status != StatusOK ==> h.table == t
    ensures Atoi(userHeader).None? ==> h.response == InvalidUserId
    ensures Atoi(userHeader).Some? && Atoi(idParam).None? ==> h.response == InvalidTaskId
    ensures Atoi(userHeader).Some? && Atoi(idParam).Some? && body.None? ==> h.response == InvalidBody
    ensures h.response.status == StatusOK <==>
      && Atoi(userHeader).Some? && Atoi(idParam).Some? && body.Some?
      && Atoi(idParam).value in t.rows && t.rows[Atoi(idParam).value].userId == Atoi(userHeader).value
    ensures h.response.status == StatusOK ==>
      var id := Atoi(idParam).value;
      var existing := t.rows[id];
      var req := body.value;
      var updated := Task(id, req.title, req.description, req.status, req.priority, existing.userId, existing.createdAt);
      && h.table == TaskTable(t.rows[id := updated], t.nextId)
      && h.response.body == One(updated)
    ensures h.response.status != StatusOK && Atoi(userHeader).Some? && Atoi(idParam).Some? && body.Some? ==>
      h.response == TaskNotFound
  {
    match Atoi(userHeader)
    case None => Handled(InvalidUserId, t)
    case Some(caller) =>
      match Atoi(idParam)
      case None => Handled(InvalidTaskId, t)
      case Some(id) =>
        match body
        case None => Handled(InvalidBody, t)
        case Some(req) =>
          match Owned(t, id, caller)
          case None => Handled(TaskNotFound, t)
          case Some(existing) =>
            var updated := existing.(title := req.title, description := req.description,
                                     status := req.status, priority := req.priority);
            Handled(Response(StatusOK, One(updated)), TaskTable(t.rows[id := updated], t.nextId))
  }

  /* ---------------------------------------------------------------- delete */

  /** `deleteTaskHandler`: removes exactly the caller's task `id` and answers 204 with no body. */
  function DeleteTask(t: TaskTable, userHeader: string, idParam: string): (h: Handled)
    requires Valid(t)
    ensures Valid(h.table)
    ensures h.response.status != StatusNoContent ==> h.table == t
    ensures Atoi(userHeader).None? ==> h.response == InvalidUserId
    ensures Atoi(userHeader).Some? && Atoi(idParam).None? ==> h.response == InvalidTaskId
    ensures h.response.status == StatusNoContent <==>
      && Atoi(userHeader).Some? && Atoi(idParam).Some?
      && Atoi(idParam).value in t.rows && t.rows[Atoi(idParam).value].userId == Atoi(userHeader).value
    ensures h.response.status == StatusNoContent ==>
      h == Handled(Response(StatusNoContent, NoBody), TaskTable(t.rows - {Atoi(idParam).value}, t.nextId))
    ensures h.response.status != StatusNoContent && Atoi(userHeader).Some? && Atoi(idParam).Some? ==>
      h.response == TaskNotFound
  {
    match Atoi(userHeader)
    case None => Handled(InvalidUserId, t)
    case Some(caller) =>
      match Atoi(idParam)
      case None => Handled(InvalidTaskId, t)
      case Some(id) =>
        if Owned(t, id, caller).None? then Handled(TaskNotFound, t)
        else Handled(Response(StatusNoContent, NoBody), TaskTable(t.rows - {id}, t.nextId))
  }

  /* ------------------------------------------------------- read after write */

  /** A created task can be fetched back by its owner, by the decimal id the response carries. */
  lemma CreateThenGet(t: TaskTable, userHeader: string, body: Option<CreateTaskRequest>, now: int)
    requires Valid(t)
    requires CreateTask(t, userHeader, body, now).response.status == StatusCreated
    ensures var h := CreateTask(t, userHeader, body, now);
      GetTask(h.table, userHeader, Itoa(h.response.body.task.id)) == Response(StatusOK, One(h.response.body.task))
  {
    var h := CreateTask(t, userHeader, body, now);
    AtoiItoa(h.response.body.task.id);
  }

  /** After an update, fetching the task returns exactly what the update answered. */
  lemma UpdateThenGet(t: TaskTable, userHeader: string, idParam: string, body: Option<UpdateTaskRequest>)
    requires Valid(t)
    requires UpdateTask(t, userHeader, idParam, body).response.status == StatusOK
    ensures var h := UpdateTask(t, userHeader, idParam, body);
      GetTask(h.table, userHeader, idParam) == h.response
  {
  }

  /** After a delete, the task is gone: fetching it or deleting it again is a 404. */
  lemma DeleteThenGet(t: TaskTable, userHeader: string, idParam: string)
    requires Valid(t)
    requires DeleteTask(t, userHeader, idParam).response.status == StatusNoContent
    ensures var h := DeleteTask(t, userHeader, idParam);
      && GetTask(h.table, userHeader, idParam) == TaskNotFound
      && DeleteTask(h.table, userHeader, idParam) == Handled(TaskNotFound, h.table)
  {
  }

  /* --------------------------------------------------------------- listing */

  /** The WHERE clause of the listing: the caller's rows, narrowed by each non-empty filter. */
  datatype Filter = Filter(caller: int, status: string, priority: string) {
    predicate Selects(task: Task) {
      && task.userId == caller
      && (status == "" || task.status == status)
      && (priority == "" || task.priority == priority)
    }
  }

  /** ORDER BY created_at DESC. */
  predicate NewestFirst(ts: seq<Task>) {
    forall i, j :: 0 <= i < j < |ts| ==> ts[i].createdAt >= ts[j].createdAt
  }

  predicate NoDuplicates(ts: seq<Task>) {
    forall i, j :: 0 <= i < j < |ts| ==> ts[i] != ts[j]
  }

  /** What the listing query returns: exactly the selected rows, each once, newest first. */
  predicate IsListing(t: TaskTable, f: Filter, ts: seq<Task>) {
    && (forall i :: 0 <= i < |ts| ==> ts[i].id in t.rows && t.rows[ts[i].id] == ts[i] && f.Selects(ts[i]))
    && (forall id :: id in t.rows && f.Selects(t.rows[id]) ==> t.rows[id] in ts)
    && (forall i, j :: 0 <= i < j < |ts| ==> ts[i].id != ts[j].id)
    && NewestFirst(ts)
  }

  /** The selected rows with ids from `from` up to the counter, in ascending id order. */
  function Scan(t: TaskTable, f: Filter, from: int): (ts: seq<Task>)
    requires Valid(t)
    ensures forall x :: x in ts ==> from <= x.id && x.id in t.rows && t.rows[x.id] == x && f.Selects(x)
    ensures forall id :: from <= id && id in t.rows && f.Selects(t.rows[id]) ==> t.rows[id] in ts
    ensures NoDuplicates(ts)
    decreases t.nextId - from
  {
    if from >= t.nextId then []
    else
      var rest := Scan(t, f, from + 1);
      if from in t.rows && f.Selects(t.rows[from]) then [t.rows[from]] + rest else rest
  }

  /** Places `task` in a newest-first sequence, ahead of rows created at the same time. */
  function InsertNewestFirst(ts: seq<Task>, task: Task): (r: seq<Task>)
    requires NewestFirst(ts)
    ensures |r| == |ts| + 1
    ensures r[0] == task || (|ts| > 0 && r[0] == ts[0])
    ensures forall x :: x in r <==> x in ts || x == task
    ensures NewestFirst(r)
  {
    if |ts| == 0 || task.createdAt >= ts[0].createdAt then [task] + ts
    else
      var rest := InsertNewestFirst(ts[1..], task);
      assert rest[0].createdAt <= ts[0].createdAt;
      [ts[0]] + rest
  }

  /** Inserting a task that is not yet present keeps every task listed once. */
  lemma {:induction false} InsertKeepsDistinct(ts: seq<Task>, task: Task)
    requires NewestFirst(ts) && NoDuplicates(ts) && task !in ts
    ensures NoDuplicates(InsertNewestFirst(ts, task))
    decreases |ts|
  {
    if |ts| > 0 && task.createdAt < ts[0].createdAt {
      assert NoDuplicates(ts[1..]);
      InsertKeepsDistinct(ts[1..], task);
      assert ts[0] !in ts[1..];
      assert ts[0] !in InsertNewestFirst(ts[1..], task);
    }
  }

  /** Insertion sort on `createdAt`, descending. */
  function SortNewestFirst(ts: seq<Task>): (r: seq<Task>)
    ensures NewestFirst(r)
    ensures forall x :: x in r <==> x in ts
    ensures NoDuplicates(ts) ==> NoDuplicates(r)
  {
    if |ts| == 0 then []
    else
      var sorted := SortNewestFirst(ts[1..]);
      if NoDuplicates(ts) then
        assert NoDuplicates(ts[1..]);
        assert ts[0] !in sorted;
        InsertKeepsDistinct(sorted, ts[0]);
        InsertNewestFirst(sorted, ts[0])
      else
        InsertNewestFirst(sorted, ts[0])
  }

  /** The rows the listing query returns for filter `f`. */
  function Select(t: TaskTable, f: Filter): (ts: seq<Task>)
    requires Valid(t)
    ensures IsListing(t, f, ts)
  {
    var ts := SortNewestFirst(Scan(t, f, 1));
    assert forall i :: 0 <= i < |ts| ==> ts[i] in ts;
    assert forall i, j :: 0 <= i < j < |ts| ==> ts[i].id != ts[j].id by {
      forall i, j | 0 <= i < j < |ts|
        ensures ts[i].id != ts[j].id
      {
        assert ts[i] != ts[j];
        assert ts[i] in ts && ts[j] in ts;
      }
    }
    ts
  }

  /**
   Get and list agree: a stored task can be fetched by a caller exactly when it
   appears in that caller's unfiltered listing.
   */
  lemma OwnedIffListed(t: TaskTable, id: int, caller: int)
    requires Valid(t) && id in t.rows
    ensures Owned(t, id, caller).Some? <==> t.rows[id] in Select(t, Filter(caller, "", ""))
  {
  }

  /** `getTasksHandler`: the caller's tasks, filtered by the non-empty query parameters. */
  function ListTasks(t: TaskTable, userHeader: string, status: string, priority: string): (r: Response)
    requires Valid(t)
    ensures Atoi(userHeader).None? ==> r == InvalidUserId
    ensures Atoi(userHeader).Some? ==>
      r.status == StatusOK && r.body.Many? && IsListing(t, Filter(Atoi(userHeader).value, status, priority), r.body.tasks)
  {
    match Atoi(userHeader)
    case None => InvalidUserId
    case Some(caller) => Response(StatusOK, Many(Select(t, Filter(caller, status, priority))))
  }
}

=== FILE: wrappers.dfy ===
/** Optional values and results, used wherever a service reports "absent" or "failed". */
module Wrappers {

  datatype Option<+T> = None | Some(value: T)

  datatype Result<+T, +E> = Success(value: T) | Failure(error: E)
}
